=== FILE: README.md ===
# Hike-and-fly track evaluation, modelled in Dafny

The hike-and-fly app takes the GPX tracklog of an attempt at a course. The
course has a start/finish cylinder and one turnpoint cylinder. The app
splits the track into a climb (from the last start contact before the first
turnpoint contact, up to that turnpoint contact) and a descent (from the last
turnpoint contact to the first start contact after it). It shows error
messages for tracks that miss a cylinder or tag them out of order, and it
shows the climb and descent times as `HH:MM:SS`.

This project models that core as pure functions over immutable values:

- `Cylinders` (`cylinders.dfy`): cylinders, the strict point-in-cylinder
  test over a distance function passed in by the caller, and the task
  bounding box.
- `Tracklog` (`tracklog.dfy`): the GPX document (tracks, segments, points)
  and its flattening into the ordered point list. A point's index is its
  position in that list.
- `Segments` (`segments.dfy`): the classifier. It builds the containment
  columns, the four extrema `up_end`, `up_start`, `down_start` and
  `down_end` as `Option<nat>` (None standing for pandas' NaN), and the climb
  and descent columns as open index intervals.
- `DeltaFormat` (`delta_format.dfy`): the `timedelta` normalisation into
  days, seconds and microseconds. It also covers `string.Template`
  substitution with the `%` delimiter, `'{:02d}'` padding, and `strfdelta`.
- `Evaluation` (`evaluation.dfy`): the upload page's checks and result
  table. The three checks (start crossed, turnpoint crossed, order) each add
  their message independently. The times are max − min of the segment
  timestamps. The table holds the athlete, the second point's timestamp and
  the two formatted times.
- `Wrappers` (`wrappers.dfy`): `Option` and `Result`.

The main fact proved is that the climb always lies strictly before the
descent: climb < `up_end` ≤ `down_start` < descent. So the page's
"Order of tagging the cylinders is incorrect" message can never appear
(`Evaluation.OrderNeverViolated`, `Evaluation.EvaluateErrors`).

Behaviour of the code worth noting:

- The checks in HaF.py do not stop at the first failure. Every failing
  check shows its message, and the page goes on to compute the times. The
  page checks only the two crossings and their order; an empty climb or
  descent is caught only when its time is formatted. The athlete is the
  constant "Earl", and nothing is stored or compared with earlier results.
- The date comes from the point at index 1, the second point of the track.
- An empty segment gives a NaT time. `strfdelta` raises on NaT, so the page
  fails while building its table. The model returns `Crash.NotATime`.
- A document without tracks, or whose first track has no points, makes
  `gpx_to_df` raise. The model returns `GpxError.NoTrack` or
  `GpxError.NoPoints`.

Timestamps are whole microseconds on a common clock. Durations are
normalised the way Python's `timedelta` does it: `seconds` lies in
0..86399, and `%H:%M:%S` shows only that part.

## Model

| member | source | states |
|---|---|---|
| `Cylinders.IsInside` | haf_module.py:146-150 | `is_inside_cylinder`: a point is inside exactly when its distance from the centre, with the centre as first argument, is strictly below the radius |
| `Cylinders.RimIsOutside` | haf_module.py:146-150 | a point at distance exactly the radius, or further, is not inside: the comparison is strict |
| `Cylinders.CentreIsInside` | haf_module.py:149 | if the distance from the centre to itself is 0 and the radius is positive, the centre is inside |
| `Cylinders.InsideMonotoneInRadius` | haf_module.py:149 | a point inside a cylinder stays inside when the radius grows |
| `Cylinders.TaskBounds` | haf_module.py:71-80 | the box `[[south, east], [north, west]]` has south ≤ north and west ≤ east; each side is one of the two centres' coordinates; both centres lie inside the box |
| `Cylinders.TaskBoundsSymmetric` | haf_module.py:73-76 | swapping the two cylinders gives the same box |
| `Tracklog.Flatten` | haf_module.py:102-109 | the nested loops append every point of every segment; the list is as long as the segments' points put together |
| `Tracklog.FlattenPlacesPoint` | haf_module.py:102-109 | point k of segment s lands at row (points in earlier segments) + k, so the list is the segments concatenated in order |
| `Tracklog.FlattenAppend` | haf_module.py:102-109 | flattening a concatenation of segment lists is the concatenation of the flattenings |
| `Tracklog.GpxToTrack` | haf_module.py:98-115 | fails without a track, and fails when the first track has no points (no `time` column); otherwise it returns the flattening of the first track, with one row per point |
| `Tracklog.OnlyFirstTrackCounts` | haf_module.py:101-102 | adding tracks after the first does not change the result |
| `Segments.FirstFrom` | haf_module.py:133 | `min` of the set indices from a bound on: it is None exactly when no index there is set; otherwise it is set and no earlier index in range is |
| `Segments.LastBelow` | haf_module.py:134-135 | `max` of the set indices below a bound: it is None exactly when none is set; otherwise it is set and no later index below the bound is |
| `Segments.ClassifyFlags` | haf_module.py:131-139 | `up_end` is the first turnpoint contact. `up_start` is the last start contact before it. `down_start` is the last turnpoint contact. `down_end` is the first start contact after it. Each is None when its filter is empty (`up_start` also when `up_end` is None). A point is in the climb or descent exactly when its index is strictly between the bounds |
| `Segments.InsideFlags` | haf_module.py:122-129 | the containment column has one flag per point, set exactly when that point is inside the cylinder |
| `Segments.IdentifyUpAndDownSegments` | haf_module.py:117-141 | the containment columns test each point against the start and turnpoint cylinders, and the segments are derived from them as above |
| `Segments.ClimbPrecedesDescent` | haf_module.py:133-139 | every climb index is strictly below every descent index |
| `Segments.SegmentsAvoidCylinders` | haf_module.py:133-139 | no climb point and no descent point is inside either cylinder |
| `Segments.MissingContactEmptiesSegments` | haf_module.py:133-139 | without a turnpoint contact both segments are empty; without a start contact after the last turnpoint contact the descent is empty |
| `Segments.RevisitedTurnpointExample` | haf_module.py:133-139 | on a track that visits the turnpoint twice, the climb is bounded by the first turnpoint contact and the descent starts at the second |
| `DeltaFormat.FromMicros` | haf_module.py:157-158 | a duration splits into days, seconds in 0..86399 and microseconds in 0..999999, and the parts add up to the total |
| `DeltaFormat.FromTotalMicros` | haf_module.py:157-158 | a normalised duration is recovered from its total, so the split is unique |
| `DeltaFormat.NatToDecimal` | haf_module.py:157 | the decimal text of a number is non-empty and all digits, has one digit exactly when the number is below 10, and has no leading zero |
| `DeltaFormat.NatToDecimalRoundTrip` | haf_module.py:157 | reading the decimal text back gives the number |
| `DeltaFormat.Format02d` | haf_module.py:160-162 | `'{:02d}'` gives at least two digits, exactly the tens and units digit below 100, no leading zero from 10 on, and reads back as the number |
| `DeltaFormat.PlaceholderAt` | haf_module.py:153-154 | after a `%`: `%` is an escape; a bare name is the whole run of ASCII identifier characters; a braced name is read exactly when it is closed by `}` right after it; anything else is invalid |
| `DeltaFormat.Substitute` | haf_module.py:163-164 | `Template.substitute` fails only where the format has a `%`, and reports a missing key only for a name absent from the mapping |
| `DeltaFormat.SubstituteLiteral` | haf_module.py:153-154 | a format without `%` is returned unchanged |
| `DeltaFormat.SubstituteEscape` | haf_module.py:153-154 | `%%` stands for a single `%` |
| `DeltaFormat.SubstituteChar` | haf_module.py:163-164 | a character other than `%` is copied to the output |
| `DeltaFormat.SubstituteName` | haf_module.py:163-164 | `%X`, with X a one-letter name in the mapping and not followed by a name character, is replaced by the mapped text |
| `DeltaFormat.SubstituteNamed` | haf_module.py:163-164 | `%name`, for a name of any length that the mapping holds and that no name character continues, is replaced by the mapped text, and substitution resumes right after the name |
| `DeltaFormat.SubstituteBraced` | haf_module.py:153-154 | `%{name}` is replaced by the mapped text; the closing `}` is consumed with it |
| `DeltaFormat.SubstituteInvalid` | haf_module.py:153-154 | a `%` at the end, or before a character that starts no escape, name or braced name, raises the invalid-placeholder error |
| `DeltaFormat.PlaceholderTakesLongestName` | haf_module.py:163-164 | `%HM` asks for the name `HM`, which the mapping lacks, so substitution fails |
| `DeltaFormat.ClockOf` | haf_module.py:158-159 | hours in 0..23, minutes and seconds in 0..59, and hours·3600 + minutes·60 + seconds equals the duration's `seconds` |
| `DeltaFormat.DeltaMapping` | haf_module.py:157-162 | the mapping has exactly the keys D, H, M, S; D is `str(days)`; H, M and S are two digits each and read back as the hours, minutes and seconds of the two `divmod` steps, which add up to the duration's `seconds` |
| `DeltaFormat.Strfdelta` | haf_module.py:156-164 | `strfdelta` fails only on a format containing `%`, and reports a missing key only for a name other than D, H, M, S |
| `DeltaFormat.StrfdeltaInvalid` | haf_module.py:153-164 | `strfdelta` raises on a `%` that starts no placeholder, whatever the duration |
| `DeltaFormat.StrfdeltaBracedDays` | haf_module.py:153-164 | `%{D}` renders the duration's days as `str(days)`, and text without `%` after it is copied |
| `DeltaFormat.StrfdeltaClock` | haf_module.py:156-164 | with `%H:%M:%S` the result is the three two-digit fields joined by colons |
| `DeltaFormat.ParseClockText` | haf_module.py:160-162 | reading an `HH:MM:SS` text back gives hours·3600 + minutes·60 + seconds |
| `DeltaFormat.StrfdeltaClockRoundTrip` | haf_module.py:156-164 | `%H:%M:%S` formatting succeeds and reads back as the duration's within-day seconds |
| `DeltaFormat.StrfdeltaDropsDays` | haf_module.py:157-158 | durations a whole number of days apart format the same: days are dropped |
| `DeltaFormat.StrfdeltaExample` | haf_module.py:156-164 | 1 h 2 min 3 s renders as "01:02:03" |
| `Evaluation.Count` | HaF.py:73-76 | the `sum()` of a boolean column is the number of set rows: at most the length, and 0 exactly when no row is set |
| `Evaluation.OrderViolated` | HaF.py:79 | the ordering test is true exactly when some climb index exceeds some descent index (an empty segment makes it false) |
| `Evaluation.Errors` | HaF.py:73-80 | each message appears exactly when its own check fails, independently of the others, at most once and in the order the page shows them |
| `Evaluation.MaxTime` | HaF.py:86-87 | `time.max()` over a segment is None for an empty segment; otherwise it is some member's time and no member's time exceeds it |
| `Evaluation.MinTime` | HaF.py:86-87 | `time.min()` over a segment is None for an empty segment; otherwise it is some member's time and no member's time is below it |
| `Evaluation.Elapsed` | HaF.py:86-87 | the segment time is None exactly for an empty segment; otherwise it is a non-negative spread reached by two segment points and bounding the time difference of any two |
| `Evaluation.Evaluate` | HaF.py:70-96 | the page classifies the track. The errors are the three checks on that classification. Each time is the spread of its segment's timestamps, present exactly when the segment holds a point. The table is built from those two times |
| `Evaluation.EvaluateErrors` | HaF.py:73-80 | "does not cross the start cylinder" appears exactly when no point is inside it; likewise for the turnpoint; the ordering message never appears |
| `Evaluation.OrderNeverViolated` | HaF.py:79-80 | the ordering test is false on every classification the classifier produces |
| `Evaluation.BothCrossingMessages` | HaF.py:73-76 | a track touching neither cylinder gets both crossing messages, in page order |
| `Evaluation.FormatElapsed` | HaF.py:94-95 | NaT fails. A present time always formats as its within-day clock `HH:MM:SS` and reads back as its within-day seconds |
| `Evaluation.ResultTable` | HaF.py:91-96 | fewer than two points fail first, then a missing time. The table is built exactly when there is a second point and both times are present. It then holds "Earl", the second point's timestamp, and the exact `HH:MM:SS` text of each time |
| `Evaluation.EvaluateTable` | HaF.py:86-96 | on a whole track, the table is built exactly when there are two points and both segments are non-empty |
| `Evaluation.NoTurnpointNoTable` | HaF.py:75-76 | without a turnpoint contact the page shows the turnpoint message and then fails on the empty climb |

## Left out

- The geodesic distance (`geopy.distance.geodesic`) is ellipsoidal floating-point code in a foreign library. Every operation takes it as a function parameter.
- Floating-point arithmetic in general: coordinates, radii and distances are exact reals.
- The Firestore connection, credential selection and loading cylinders from the store. Only a cylinder's centre and radius are modelled.
- Folium circles and markers, the base map, the GPX bounding box, the AntPath and fitting the map: all of this is rendering.
- Parsing GPX XML with `gpxpy.parse`. The model starts from the parsed document. GPX points without a timestamp are not modelled.
- The `time_str` column: it only converts times to text for export.
- The calendar rendering of the date (`strftime('%Y.%m.%d')`). The result row keeps the second point's raw timestamp.
- Streamlit output: headers, sidebar, uploader and the dataframe widget. Home.py is all UI and is not part of this model.
- Nanosecond resolution of pandas timestamps: times are whole microseconds, the resolution a GPX parser yields.
- The athlete name, persistence and duplicate-submission checks are absent from this page of the source, so they are not modelled.

=== FILE: cylinders.dfy ===
/** Task cylinders: the circular start/finish zone and turnpoint of a
    hike-and-fly course, the point-in-cylinder test and the bounding box of
    the two cylinder centres (haf_module.py). */
module Cylinders {

  /** A position in degrees, latitude first as in folium's `location`. */
  datatype LatLon = LatLon(lat: real, lon: real)

  /** A cylinder as the app uses it: a centre and a radius in metres. */
  datatype Cylinder = Cylinder(center: LatLon, radius: real)

  /** The geodesic distance in metres between two positions. The ellipsoidal
      computation lives in a foreign library, so every operation that needs it
      takes it as a parameter. */
  type Distance = (LatLon, LatLon) -> real

  /** `is_inside_cylinder`: the distance from the centre to the point is
      strictly below the radius. The centre is the first argument. */
  predicate IsInside(dist: Distance, c: Cylinder, p: LatLon)
    ensures IsInside(dist, c, p) <==> dist(c.center, p) < c.radius
  {
    dist(c.center, p) < c.radius
  }

  /** A point on the rim, or beyond it, is outside. */
  lemma RimIsOutside(dist: Distance, c: Cylinder, p: LatLon)
    requires dist(c.center, p) >= c.radius
    ensures !IsInside(dist, c, p)
  {
  }

  /** With a distance that vanishes on equal positions, the centre of a
      cylinder of positive radius is inside. */
  lemma CentreIsInside(dist: Distance, c: Cylinder)
    requires dist(c.center, c.center) == 0.0
    requires c.radius > 0.0
    ensures IsInside(dist, c, c.center)
  {
  }

  /** Growing the radius never expels a point. */
  lemma InsideMonotoneInRadius(dist: Distance, c: Cylinder, r: real, p: LatLon)
    requires c.radius <= r
    requires IsInside(dist, c, p)
    ensures IsInside(dist, Cylinder(c.center, r), p)
  {
  }

  function Max(a: real, b: real): real { if a < b then b else a }
  function Min(a: real, b: real): real { if a < b then a else b }

  /** The box `[[south, east], [north, west]]` returned by `get_task_bounds`. */
  datatype Bounds = Bounds(southEast: LatLon, northWest: LatLon)
  {
    function South(): real { southEast.lat }
    function East(): real { southEast.lon }
    function North(): real { northWest.lat }
    function West(): real { northWest.lon }
  }

  /** `get_task_bounds`: the smallest box holding both cylinder centres. */
  function TaskBounds(start: Cylinder, turnpoint: Cylinder): (b: Bounds)
    ensures b.South() <= b.North() && b.West() <= b.East()
    ensures b.South() in {start.center.lat, turnpoint.center.lat}
    ensures b.North() in {start.center.lat, turnpoint.center.lat}
    ensures b.West() in {start.center.lon, turnpoint.center.lon}
    ensures b.East() in {start.center.lon, turnpoint.center.lon}
    ensures forall c | c in {start, turnpoint} ::
              b.South() <= c.center.lat <= b.North() && b.West() <= c.center.lon <= b.East()
  {
    var north := Max(turnpoint.center.lat, start.center.lat);
    var south := Min(turnpoint.center.lat, start.center.lat);
    var east := Max(turnpoint.center.lon, start.center.lon);
    var west := Min(turnpoint.center.lon, start.center.lon);
    Bounds(LatLon(south, east), LatLon(north, west))
  }

  /** The box does not depend on which cylinder is the start. */
  lemma TaskBoundsSymmetric(a: Cylinder, b: Cylinder)
    ensures TaskBounds(a, b) == TaskBounds(b, a)
  {
  }
}

=== FILE: delta_format.dfy ===
/** `strfdelta` and `DeltaTemplate` (haf_module.py): a duration split the
    way Python's `timedelta` normalises it, formatted through a
    `string.Template` whose delimiter is `%`. */
module DeltaFormat {
  import opened Wrappers

  const MicrosPerSecond: nat := 1_000_000
  const SecondsPerDay: nat := 86_400
  const MicrosPerDay: nat := 86_400_000_000

  /** A normalised duration: whole days (possibly negative), then seconds
      and microseconds within the day. */
  datatype Timedelta = Timedelta(days: int, seconds: nat, microseconds: nat)

  /** A duration in `timedelta`'s normal form. */
  type Duration = t: Timedelta | t.seconds < SecondsPerDay && t.microseconds < MicrosPerSecond
    witness Timedelta(0, 0, 0)

  function TotalMicros(t: Timedelta): int
  {
    t.days * MicrosPerDay + t.seconds * MicrosPerSecond + t.microseconds
  }

  /** The duration of `us` microseconds, normalised like `timedelta`. */
  function FromMicros(us: int): (t: Duration)
    ensures TotalMicros(t) == us
  {
    var rest := us % MicrosPerDay;
    Timedelta(us / MicrosPerDay, rest / MicrosPerSecond, rest % MicrosPerSecond)
  }

  /** Normalisation is unique: a normalised duration is recovered from its
      total. */
  lemma FromTotalMicros(t: Duration)
    ensures FromMicros(TotalMicros(t)) == t
  {
    var u := FromMicros(TotalMicros(t));
    var within := t.seconds * MicrosPerSecond + t.microseconds;
    assert 0 <= within < MicrosPerDay;
    DivModUnique(TotalMicros(t), MicrosPerDay, t.days, within);
    DivModUnique(within, MicrosPerSecond, t.seconds, t.microseconds);
  }

  lemma DivModUnique(x: int, d: nat, q: int, r: int)
    requires d > 0 && 0 <= r < d && x == q * d + r
    ensures x / d == q && x % d == r
  {
    var q', r' := x / d, x % d;
    assert q' * d + r' == q * d + r;
    if q' != q {
      var k := q' - q;
      assert k * d == r - r' by {
        assert k * d == q' * d - q * d;
      }
      if k > 0 {
        MulAtLeast(k, d);
      } else {
        MulAtLeast(-k, d);
      }
    }
  }

  lemma MulAtLeast(k: int, d: nat)
    requires k >= 1
    ensures k * d >= d
  {
    assert k * d == (k - 1) * d + d;
  }

  // ---------------------------------------------------------------- digits

  function DigitChar(d: nat): char
    requires d < 10
  {
    ('0' as int + d) as char
  }

  predicate IsDigit(c: char) { '0' <= c <= '9' }

  predicate AllDigits(s: string) { forall k :: 0 <= k < |s| ==> IsDigit(s[k]) }

  function DigitValue(c: char): nat
    requires IsDigit(c)
  {
    (c as int - '0' as int) as nat
  }

  /** `str(n)` for a natural number: decimal, no leading zeros. */
  function NatToDecimal(n: nat): (s: string)
    ensures |s| >= 1
    ensures forall k :: 0 <= k < |s| ==> IsDigit(s[k])
    ensures n < 10 <==> |s| == 1
    ensures n >= 1 ==> s[0] != '0'
  {
    if n < 10 then [DigitChar(n)] else NatToDecimal(n / 10) + [DigitChar(n % 10)]
  }

  /** The value of a string of decimal digits. */
  function DecimalValue(s: string): nat
    requires forall k :: 0 <= k < |s| ==> IsDigit(s[k])
  {
    if |s| == 0 then 0 else DecimalValue(s[..|s| - 1]) * 10 + DigitValue(s[|s| - 1])
  }

  lemma {:induction false} NatToDecimalRoundTrip(n: nat)
    ensures DecimalValue(NatToDecimal(n)) == n
  {
    var s := NatToDecimal(n);
    if n >= 10 {
      NatToDecimalRoundTrip(n / 10);
      assert s[..|s| - 1] == NatToDecimal(n / 10);
    }
  }

  lemma TwoDigitDecimal(s: string)
    requires |s| == 2 && IsDigit(s[0]) && IsDigit(s[1])
    ensures DecimalValue(s) == DigitValue(s[0]) * 10 + DigitValue(s[1])
  {
    var head := s[..1];
    assert head[..0] == [];
    assert DecimalValue(head) == DigitValue(s[0]);
    assert s[..|s| - 1] == head;
  }

  /** `str(i)` for any integer. */
  function IntToDecimal(i: int): string
  {
    if i < 0 then "-" + NatToDecimal(-i) else NatToDecimal(i)
  }

  /** `'{:02d}'.format(n)` for a natural number: at least two digits, padded
      with a leading zero. */
  function Format02d(n: nat): (s: string)
    ensures |s| >= 2
    ensures n < 100 ==> s == [DigitChar(n / 10), DigitChar(n % 10)]
    ensures n >= 10 ==> s[0] != '0'
    ensures forall k :: 0 <= k < |s| ==> IsDigit(s[k])
    ensures DecimalValue(s) == n
  {
    if n < 100 then
      var s := [DigitChar(n / 10), DigitChar(n % 10)];
      TwoDigitDecimal(s);
      s
    else NatToDecimalRoundTrip(n); NatToDecimal(n)
  }

  // -------------------------------------------------------------- template

  /** ASCII identifier characters, as `Template.idpattern` matches them
      case-insensitively. */
  predicate IsIdStart(c: char) { c == '_' || 'a' <= c <= 'z' || 'A' <= c <= 'Z' }
  predicate IsIdChar(c: char) { IsIdStart(c) || IsDigit(c) }

  /** Length of the longest run of identifier characters at the front of `s`. */
  function IdRun(s: string): (n: nat)
    ensures n <= |s|
    ensures forall k :: 0 <= k < n ==> IsIdChar(s[k])
    ensures n < |s| ==> !IsIdChar(s[n])
  {
    if |s| == 0 || !IsIdChar(s[0]) then 0 else 1 + IdRun(s[1..])
  }

  /** How `Template.substitute` fails: a `%` that starts no placeholder
      raises ValueError, a name missing from the mapping raises KeyError. */
  datatype TemplateError = InvalidPlaceholder | MissingKey(name: string)

  /** What follows a `%`: another `%`, a name (bare or in braces) taking
      `width` characters, or nothing valid. */
  datatype Placeholder = Escaped | Named(name: string, width: nat) | Invalid

  /** The placeholder at the front of the text after a `%`. A bare name is
      the longest identifier; a braced name must be closed right after it. */
  function PlaceholderAt(after: string): (p: Placeholder)
    ensures p.Escaped? <==> |after| >= 1 && after[0] == '%'
    ensures p.Named? ==> 1 <= p.width <= |after|
    ensures p.Named? ==> |p.name| >= 1 && IsIdStart(p.name[0])
                         && forall k :: 0 <= k < |p.name| ==> IsIdChar(p.name[k])
    // a bare name is the whole identifier run
    ensures p.Named? && p.width == |p.name| ==>
              after[..p.width] == p.name && (p.width == |after| || !IsIdChar(after[p.width]))
    // a braced name is closed right after it
    ensures p.Named? && p.width != |p.name| ==>
              p.width == |p.name| + 2 && after[0] == '{' && after[1..p.width - 1] == p.name && after[p.width - 1] == '}'
    ensures p.Invalid? ==> |after| == 0 || (after[0] != '%' && !IsIdStart(after[0]))
    // a closed `{name}` is always read as that name
    ensures forall w :: 2 <= w < |after| && after[0] == '{' && IsIdStart(after[1])
                        && (forall k :: 1 <= k < w ==> IsIdChar(after[k])) && after[w] == '}'
                        ==> p == Named(after[1..w], w + 1)
  {
    if |after| >= 1 && after[0] == '%' then Escaped
    else if |after| >= 1 && IsIdStart(after[0]) then
      var n := IdRun(after);
      Named(after[..n], n)
    else if |after| >= 2 && after[0] == '{' && IsIdStart(after[1])
            && 1 + IdRun(after[1..]) < |after| && after[1 + IdRun(after[1..])] == '}' then
      var n := IdRun(after[1..]);
      Named(after[1..1 + n], n + 2)
    else Invalid
  }

  /** `Template.substitute` with delimiter `%`: `%%` is a literal `%`,
      `%name` and `%{name}` are replaced by the mapping's value, and any
      other `%` is an error. Placeholders are resolved left to right, so the
      first bad one decides the error. */
  function Substitute(fmt: string, mapping: map<string, string>): (r: Result<string, TemplateError>)
    ensures r.Failure? ==> exists k :: 0 <= k < |fmt| && fmt[k] == '%'
    ensures r.Failure? && r.error.MissingKey? ==> r.error.name !in mapping
    decreases |fmt|
  {
    if |fmt| == 0 then Success("")
    else if fmt[0] != '%' then
      var rest :- Substitute(fmt[1..], mapping);
      Success([fmt[0]] + rest)
    else
      match PlaceholderAt(fmt[1..])
      case Escaped =>
        var rest :- Substitute(fmt[2..], mapping);
        Success("%" + rest)
      case Named(name, width) =>
        if name !in mapping then Failure(MissingKey(name))
        else
          var rest :- Substitute(fmt[1 + width..], mapping);
          Success(mapping[name] + rest)
      case Invalid => Failure(InvalidPlaceholder)
  }

  /** A format without `%` is returned unchanged. */
  lemma {:induction false} SubstituteLiteral(fmt: string, mapping: map<string, string>)
    requires forall k :: 0 <= k < |fmt| ==> fmt[k] != '%'
    ensures Substitute(fmt, mapping) == Success(fmt)
    decreases |fmt|
  {
    if |fmt| > 0 {
      assert forall k :: 0 <= k < |fmt[1..]| ==> fmt[1..][k] == fmt[k + 1];
      SubstituteLiteral(fmt[1..], mapping);
      assert [fmt[0]] + fmt[1..] == fmt;
    }
  }

  /** `%%` is a literal `%`. */
  lemma SubstituteEscape(rest: string, mapping: map<string, string>)
    ensures Substitute("%%" + rest, mapping)
            == (match Substitute(rest, mapping)
                case Success(v) => Success("%" + v)
                case Failure(e) => Failure(e))
  {
    var f := "%%" + rest;
    assert f[2..] == rest;
  }

  /** A plain character is copied to the output. */
  lemma SubstituteChar(c: char, rest: string, mapping: map<string, string>, v: string)
    requires c != '%'
    requires Substitute(rest, mapping) == Success(v)
    ensures Substitute([c] + rest, mapping) == Success([c] + v)
  {
    var f := [c] + rest;
    assert f[1..] == rest;
  }

  /** A one-letter placeholder not followed by an identifier character is
      replaced by the mapping's value. */
  lemma SubstituteName(x: char, rest: string, mapping: map<string, string>, v: string)
    requires IsIdStart(x) && [x] in mapping
    requires |rest| == 0 || !IsIdChar(rest[0])
    requires Substitute(rest, mapping) == Success(v)
    ensures Substitute(['%', x] + rest, mapping) == Success(mapping[[x]] + v)
  {
    var f := ['%', x] + rest;
    assert f[1..] == [x] + rest;
    assert f[1..][1..] == rest;
    assert IdRun(f[1..]) == 1;
    assert f[1..][..1] == [x];
    assert PlaceholderAt(f[1..]) == Named([x], 1);
    assert f[2..] == rest;
  }

  /** A `%` followed by a name of any length that is not continued by an
      identifier character is replaced by the mapping's value, and the text
      after the name is substituted on. */
  lemma SubstituteNamed(name: string, rest: string, mapping: map<string, string>, v: string)
    requires |name| >= 1 && IsIdStart(name[0]) && forall k :: 0 <= k < |name| ==> IsIdChar(name[k])
    requires |rest| == 0 || !IsIdChar(rest[0])
    requires name in mapping
    requires Substitute(rest, mapping) == Success(v)
    ensures Substitute("%" + name + rest, mapping) == Success(mapping[name] + v)
  {
    var f := "%" + name + rest;
    var after := f[1..];
    assert after == name + rest;
    IdRunOfName(name, rest);
    assert after[..|name|] == name;
    assert PlaceholderAt(after) == Named(name, |name|);
    assert f[1 + |name|..] == rest;
  }

  /** The identifier run of a name followed by a non-identifier character
      is exactly the name. */
  lemma {:induction false} IdRunOfName(name: string, rest: string)
    requires forall k :: 0 <= k < |name| ==> IsIdChar(name[k])
    requires |rest| == 0 || !IsIdChar(rest[0])
    ensures IdRun(name + rest) == |name|
  {
    if |name| == 0 {
      assert name + rest == rest;
    } else {
      assert (name + rest)[1..] == name[1..] + rest;
      IdRunOfName(name[1..], rest);
    }
  }

  /** A `%{name}` placeholder is replaced by the mapping's value, braces
      included, and the text after the `}` is substituted on. */
  lemma SubstituteBraced(name: string, rest: string, mapping: map<string, string>, v: string)
    requires |name| >= 1 && IsIdStart(name[0]) && forall k :: 0 <= k < |name| ==> IsIdChar(name[k])
    requires name in mapping
    requires Substitute(rest, mapping) == Success(v)
    ensures Substitute("%{" + name + "}" + rest, mapping) == Success(mapping[name] + v)
  {
    var f := "%{" + name + "}" + rest;
    var after := f[1..];
    var w := |name| + 1;
    assert after == "{" + name + "}" + rest;
    assert after[1..w] == name;
    assert forall k :: 1 <= k < w ==> after[k] == name[k - 1];
    assert PlaceholderAt(after) == Named(name, w + 1);
    assert f[1 + (w + 1)..] == rest;
  }

  /** A `%` followed by nothing, or by a character that starts neither an
      escape, a name nor a braced name, makes the substitution fail. */
  lemma SubstituteInvalid(after: string, mapping: map<string, string>)
    requires |after| == 0 || (after[0] != '%' && after[0] != '{' && !IsIdStart(after[0]))
    ensures Substitute("%" + after, mapping) == Failure(InvalidPlaceholder)
  {
    assert ("%" + after)[1..] == after;
  }

  // ------------------------------------------------------------- strfdelta

  /** The three clock fields `strfdelta` derives from `tdelta.seconds`. */
  datatype Clock = Clock(hours: nat, minutes: nat, seconds: nat)

  /** The two `divmod` steps of `strfdelta`. */
  function ClockOf(t: Duration): (c: Clock)
    ensures c.hours < 24 && c.minutes < 60 && c.seconds < 60
    ensures c.hours * 3600 + c.minutes * 60 + c.seconds == t.seconds
  {
    var hours, rem := t.seconds / 3600, t.seconds % 3600;
    Clock(hours, rem / 60, rem % 60)
  }

  /** The keyword arguments `strfdelta` hands to the template. */
  function DeltaMapping(t: Duration): (m: map<string, string>)
    ensures m.Keys == {"D", "H", "M", "S"}
    ensures |m["H"]| == 2 && |m["M"]| == 2 && |m["S"]| == 2
    ensures AllDigits(m["H"]) && AllDigits(m["M"]) && AllDigits(m["S"])
    ensures DecimalValue(m["H"]) * 3600 + DecimalValue(m["M"]) * 60 + DecimalValue(m["S"]) == t.seconds
    ensures DecimalValue(m["H"]) == ClockOf(t).hours && DecimalValue(m["M"]) == ClockOf(t).minutes
            && DecimalValue(m["S"]) == ClockOf(t).seconds
    ensures m["D"] == IntToDecimal(t.days)
  {
    var c := ClockOf(t);
    map["D" := IntToDecimal(t.days), "H" := Format02d(c.hours),
        "M" := Format02d(c.minutes), "S" := Format02d(c.seconds)]
  }

  /** `strfdelta(tdelta, fmt)`. */
  function Strfdelta(t: Duration, fmt: string): (r: Result<string, TemplateError>)
    ensures r.Failure? ==> exists k :: 0 <= k < |fmt| && fmt[k] == '%'
    ensures r.Failure? && r.error.MissingKey? ==> r.error.name !in {"D", "H", "M", "S"}
  {
    Substitute(fmt, DeltaMapping(t))
  }

  const ClockFormat: string := "%H:%M:%S"

  /** The text `HH:MM:SS` of a clock. */
  function ClockText(c: Clock): string
  {
    Format02d(c.hours) + ":" + Format02d(c.minutes) + ":" + Format02d(c.seconds)
  }

  /** A `%` that starts no placeholder makes `strfdelta` raise, whatever
      the duration. */
  lemma StrfdeltaInvalid(t: Duration, after: string)
    requires |after| == 0 || (after[0] != '%' && after[0] != '{' && !IsIdStart(after[0]))
    ensures Strfdelta(t, "%" + after) == Failure(InvalidPlaceholder)
  {
    SubstituteInvalid(after, DeltaMapping(t));
  }

  /** The braced form reaches the days, which `%H:%M:%S` never shows. */
  lemma StrfdeltaBracedDays(t: Duration, rest: string)
    requires forall k :: 0 <= k < |rest| ==> rest[k] != '%'
    ensures Strfdelta(t, "%{D}" + rest) == Success(IntToDecimal(t.days) + rest)
  {
    var m := DeltaMapping(t);
    SubstituteLiteral(rest, m);
    SubstituteBraced("D", rest, m, rest);
    assert "%{" + "D" + "}" + rest == "%{D}" + rest;
  }

  /** With the app's format every field is two zero-padded digits, the fields
      are the within-day clock of the duration and the days are dropped. */
  lemma StrfdeltaClock(t: Duration)
    ensures Strfdelta(t, ClockFormat) == Success(ClockText(ClockOf(t)))
  {
    SubstituteClock(DeltaMapping(t));
  }

  lemma SubstituteSeconds(m: map<string, string>)
    requires "S" in m
    ensures Substitute(":%S", m) == Success(":" + m["S"])
  {
    SubstituteLiteral("", m);
    SubstituteName('S', "", m, "");
    assert ['%', 'S'] + "" == "%S";
    assert m["S"] + "" == m["S"];
    SubstituteChar(':', "%S", m, m["S"]);
  }

  lemma SubstituteMinutes(m: map<string, string>)
    requires "M" in m && "S" in m
    ensures Substitute(":%M:%S", m) == Success(":" + m["M"] + ":" + m["S"])
  {
    SubstituteSeconds(m);
    SubstituteName('M', ":%S", m, ":" + m["S"]);
    assert ['%', 'M'] + ":%S" == "%M:%S";
    SubstituteChar(':', "%M:%S", m, m["M"] + (":" + m["S"]));
    assert [':'] + (m["M"] + (":" + m["S"])) == ":" + m["M"] + ":" + m["S"];
  }

  lemma SubstituteClock(m: map<string, string>)
    requires "H" in m && "M" in m && "S" in m
    ensures Substitute(ClockFormat, m) == Success(m["H"] + ":" + m["M"] + ":" + m["S"])
  {
    var tail := ":" + m["M"] + ":" + m["S"];
    assert Substitute(":%M:%S", m) == Success(tail) by { SubstituteMinutes(m); }
    assert Substitute(['%', 'H'] + ":%M:%S", m) == Success(m["H"] + tail) by {
      SubstituteName('H', ":%M:%S", m, tail);
    }
    assert ['%', 'H'] + ":%M:%S" == ClockFormat;
    PrependToFields(m["H"], ":", m["M"], m["S"]);
  }

  lemma PrependToFields(a: string, sep: string, b: string, c: string)
    ensures a + (sep + b + sep + c) == a + sep + b + sep + c
  {
  }

  /** The hours, minutes and seconds read back from an `HH:MM:SS` string. */
  function ParseClock(s: string): Option<nat>
  {
    if |s| == 8 && s[2] == ':' && s[5] == ':'
       && IsDigit(s[0]) && IsDigit(s[1]) && IsDigit(s[3]) && IsDigit(s[4]) && IsDigit(s[6]) && IsDigit(s[7])
    then Some(TwoDigitValue(s[0], s[1]) * 3600 + TwoDigitValue(s[3], s[4]) * 60 + TwoDigitValue(s[6], s[7]))
    else None
  }

  function TwoDigitValue(tens: char, ones: char): nat
    requires IsDigit(tens) && IsDigit(ones)
  {
    DigitValue(tens) * 10 + DigitValue(ones)
  }

  lemma ParseClockText(c: Clock)
    requires c.hours < 100 && c.minutes < 100 && c.seconds < 100
    ensures ParseClock(ClockText(c)) == Some(c.hours * 3600 + c.minutes * 60 + c.seconds)
  {
    var h, m, s := c.hours, c.minutes, c.seconds;
    var str := ClockText(c);
    assert str == [DigitChar(h / 10), DigitChar(h % 10), ':', DigitChar(m / 10), DigitChar(m % 10), ':',
                   DigitChar(s / 10), DigitChar(s % 10)];
    assert TwoDigitValue(str[0], str[1]) == h;
    assert TwoDigitValue(str[3], str[4]) == m;
    assert TwoDigitValue(str[6], str[7]) == s;
  }

  /** Reading the formatted clock back gives `tdelta.seconds`: the string is
      exact within a day and forgets whole days. */
  lemma StrfdeltaClockRoundTrip(t: Duration)
    ensures Strfdelta(t, ClockFormat).Success?
    ensures ParseClock(Strfdelta(t, ClockFormat).value) == Some(t.seconds)
  {
    var text := ClockText(ClockOf(t));
    assert ParseClock(text) == Some(t.seconds) by { ParseClockText(ClockOf(t)); }
    assert Strfdelta(t, ClockFormat) == Success(text) by { StrfdeltaClock(t); }
  }

  /** Adding whole days leaves the within-day seconds alone. */
  lemma FromMicrosShift(us: int, days: int)
    ensures FromMicros(us + days * MicrosPerDay).seconds == FromMicros(us).seconds
  {
    var q, r := us / MicrosPerDay, us % MicrosPerDay;
    assert us + days * MicrosPerDay == (q + days) * MicrosPerDay + r;
    DivModUnique(us + days * MicrosPerDay, MicrosPerDay, q + days, r);
  }

  /** Durations a whole number of days apart format identically. */
  lemma StrfdeltaDropsDays(us: int, days: int)
    ensures Strfdelta(FromMicros(us), ClockFormat) == Strfdelta(FromMicros(us + days * MicrosPerDay), ClockFormat)
  {
    FromMicrosShift(us, days);
    StrfdeltaClock(FromMicros(us));
    StrfdeltaClock(FromMicros(us + days * MicrosPerDay));
  }

  /** One hour, two minutes and three seconds render as "01:02:03". */
  lemma StrfdeltaExample()
    ensures Strfdelta(FromMicros(3723 * MicrosPerSecond), ClockFormat) == Success("01:02:03")
  {
    var t := FromMicros(3723 * MicrosPerSecond);
    assert t == Timedelta(0, 3723, 0) by {
      DivModUnique(3723 * MicrosPerSecond, MicrosPerDay, 0, 3723 * MicrosPerSecond);
      DivModUnique(3723 * MicrosPerSecond, MicrosPerSecond, 3723, 0);
    }
    assert ClockText(ClockOf(t)) == "01:02:03" by {
      assert ClockOf(t) == Clock(1, 2, 3);
    }
    assert Strfdelta(t, ClockFormat) == Success(ClockText(ClockOf(t))) by { StrfdeltaClock(t); }
  }

  /** A placeholder takes the longest identifier after `%`, so `%HM` asks
      for the name `HM`, which `strfdelta` does not supply. */
  lemma PlaceholderTakesLongestName(t: Duration)
    ensures Strfdelta(t, "%HM") == Failure(MissingKey("HM"))
  {
    var f := "%HM";
    assert IdRun(f[1..]) == 2;
    assert f[1..][..2] == "HM";
    assert "HM" !in DeltaMapping(t);
  }
}

=== FILE: evaluation.dfy ===
/** The validation and result fragment of the upload page (HaF.py): the
    crossing checks, the ordering check, the climb and descent times and the
    result row shown to the athlete. */
module Evaluation {
  import opened Wrappers
  import opened Cylinders
  import opened Tracklog
  import opened Segments
  import opened DeltaFormat

  /** `column.sum()` of a boolean column: the number of rows that are set. */
  function Count(b: seq<bool>): (n: nat)
    ensures n <= |b|
    ensures n == 0 <==> forall i :: 0 <= i < |b| ==> !b[i]
    ensures n == multiset(b)[true]
  {
    if |b| == 0 then 0
    else
      var init := b[..|b| - 1];
      assert forall i :: 0 <= i < |init| ==> init[i] == b[i];
      assert b == init + [b[|b| - 1]];
      Count(init) + (if b[|b| - 1] then 1 else 0)
  }

  /** The messages the page can show with `st.error`. */
  datatype AppError = StartNotCrossed | TurnpointNotCrossed | OrderIncorrect

  /** The ordering test of the page: the largest climb index exceeds the
      smallest descent index. With either segment empty one side is NaN and
      the test is false. It fires exactly when some climb point comes after
      some descent point. */
  predicate OrderViolated(c: Classification)
    ensures OrderViolated(c) <==>
              exists i, j :: 0 <= j < i < |c.segmentUp| && j < |c.segmentDown| && c.segmentUp[i] && c.segmentDown[j]
  {
    match (LastBelow(c.segmentUp, |c.segmentUp|), FirstFrom(c.segmentDown, 0))
    case (Some(upMax), Some(downMin)) => upMax > downMin
    case _ => false
  }

  /** The position of each check on the page. */
  function PageOrder(e: AppError): nat
  {
    match e
    case StartNotCrossed => 0
    case TurnpointNotCrossed => 1
    case OrderIncorrect => 2
  }

  /** The checks of HaF.py:73-80 in page order. None of them stops the
      page: every failing check adds its message. */
  function Errors(c: Classification): (errs: seq<AppError>)
    ensures StartNotCrossed in errs <==> Count(c.insideStart) < 1
    ensures TurnpointNotCrossed in errs <==> Count(c.insideTp) < 1
    ensures OrderIncorrect in errs <==> OrderViolated(c)
    ensures |errs| <= 3
    // each message at most once, in the order the page shows them
    ensures forall i, j :: 0 <= i < j < |errs| ==> PageOrder(errs[i]) < PageOrder(errs[j])
  {
    (if Count(c.insideStart) < 1 then [StartNotCrossed] else [])
    + (if Count(c.insideTp) < 1 then [TurnpointNotCrossed] else [])
    + (if OrderViolated(c) then [OrderIncorrect] else [])
  }

  /** `time.max()` over the rows whose flag is set; None (NaT) when none is. */
  function MaxTime(track: Track, flags: seq<bool>): (r: Option<int>)
    requires |flags| <= |track|
    ensures r.None? <==> forall i :: 0 <= i < |flags| ==> !flags[i]
    ensures r.Some? ==> exists i :: 0 <= i < |flags| && flags[i] && track[i].time == r.value
    ensures r.Some? ==> forall i :: 0 <= i < |flags| && flags[i] ==> track[i].time <= r.value
    decreases |flags|
  {
    if |flags| == 0 then None
    else
      var k := |flags| - 1;
      var rest := MaxTime(track, flags[..k]);
      if !flags[k] then rest
      else match rest
        case None => Some(track[k].time)
        case Some(m) => Some(if track[k].time > m then track[k].time else m)
  }

  /** `time.min()` over the rows whose flag is set; None (NaT) when none is. */
  function MinTime(track: Track, flags: seq<bool>): (r: Option<int>)
    requires |flags| <= |track|
    ensures r.None? <==> forall i :: 0 <= i < |flags| ==> !flags[i]
    ensures r.Some? ==> exists i :: 0 <= i < |flags| && flags[i] && track[i].time == r.value
    ensures r.Some? ==> forall i :: 0 <= i < |flags| && flags[i] ==> r.value <= track[i].time
    decreases |flags|
  {
    if |flags| == 0 then None
    else
      var k := |flags| - 1;
      var rest := MinTime(track, flags[..k]);
      if !flags[k] then rest
      else match rest
        case None => Some(track[k].time)
        case Some(m) => Some(if track[k].time < m then track[k].time else m)
  }

  /** `time.max() - time.min()` over a segment, in microseconds; NaT for an
      empty segment. It is the spread of the segment's timestamps, so it is
      never negative and every pair of segment points lies within it. */
  function Elapsed(track: Track, flags: seq<bool>): (r: Option<nat>)
    requires |flags| <= |track|
    ensures r.None? <==> forall i :: 0 <= i < |flags| ==> !flags[i]
    ensures r.Some? ==> forall i, j :: 0 <= i < |flags| && 0 <= j < |flags| && flags[i] && flags[j] ==>
                          track[i].time - track[j].time <= r.value
    ensures r.Some? ==> exists i, j :: 0 <= i < |flags| && 0 <= j < |flags| && flags[i] && flags[j]
                          && track[i].time - track[j].time == r.value
  {
    match (MaxTime(track, flags), MinTime(track, flags))
    case (Some(hi), Some(lo)) =>
      assert exists i :: 0 <= i < |flags| && flags[i];
      Some(hi - lo)
    case _ => None
  }

  /** Why building the result table raises. */
  datatype Crash =
    | NoSecondPoint              // `pdf.time[1]` on a table of fewer than two rows
    | NotATime                   // `strfdelta` given NaT for an empty segment
    | BadTemplate(e: TemplateError)

  /** The row shown to the athlete. The date column is the timestamp of the
      second point; its calendar rendering is left to the caller. */
  datatype ResultRow = ResultRow(athlete: string, date: int, timeUp: string, timeDown: string)

  const Athlete: string := "Earl"

  /** `strfdelta(delta, '%H:%M:%S')`, NaT raising. A present duration
      always formats, as its within-day clock, and reads back as its
      within-day seconds. */
  function FormatElapsed(delta: Option<nat>): (r: Result<string, Crash>)
    ensures delta.None? <==> r == Failure(NotATime)
    ensures delta.Some? ==> r == Success(ClockText(ClockOf(FromMicros(delta.value))))
    ensures delta.Some? ==> ParseClock(r.value) == Some(FromMicros(delta.value).seconds)
  {
    match delta
    case None => Failure(NotATime)
    case Some(us) =>
      StrfdeltaClock(FromMicros(us));
      StrfdeltaClockRoundTrip(FromMicros(us));
      match Strfdelta(FromMicros(us), ClockFormat)
      case Success(s) => Success(s)
      case Failure(e) => Failure(BadTemplate(e))
  }

  /** The table of HaF.py:91-96; its entries are evaluated in order, so a
      missing second point is noticed before an empty segment. The table is
      built exactly when there is a second point and both times are present,
      and then holds the two times as `HH:MM:SS`. */
  function ResultTable(track: Track, timeUp: Option<nat>, timeDown: Option<nat>): (r: Result<ResultRow, Crash>)
    ensures r.Success? <==> |track| >= 2 && timeUp.Some? && timeDown.Some?
    ensures |track| < 2 ==> r == Failure(NoSecondPoint)
    ensures |track| >= 2 && (timeUp.None? || timeDown.None?) ==> r == Failure(NotATime)
    ensures r.Success? ==>
              && r.value.athlete == Athlete
              && r.value.date == track[1].time
              && r.value.timeUp == ClockText(ClockOf(FromMicros(timeUp.value)))
              && r.value.timeDown == ClockText(ClockOf(FromMicros(timeDown.value)))
              && ParseClock(r.value.timeUp) == Some(FromMicros(timeUp.value).seconds)
              && ParseClock(r.value.timeDown) == Some(FromMicros(timeDown.value).seconds)
  {
    if |track| < 2 then Failure(NoSecondPoint)
    else
      var up :- FormatElapsed(timeUp);
      var down :- FormatElapsed(timeDown);
      Success(ResultRow(Athlete, track[1].time, up, down))
  }

  /** What the page computes from one uploaded track. */
  datatype Outcome = Outcome(
    classification: Classification,
    errors: seq<AppError>,
    timeUp: Option<nat>,
    timeDown: Option<nat>,
    table: Result<ResultRow, Crash>)

  /** HaF.py:70-96: classify, run every check, then compute the times and
      the table whatever the checks said. */
  function Evaluate(dist: Distance, track: Track, start: Cylinder, turnpoint: Cylinder): (o: Outcome)
    ensures o.classification == IdentifyUpAndDownSegments(dist, track, start, turnpoint)
    ensures WellFormed(o.classification, |track|)
    ensures o.timeUp.Some? <==> exists i :: 0 <= i < |track| && o.classification.segmentUp[i]
    ensures o.timeDown.Some? <==> exists i :: 0 <= i < |track| && o.classification.segmentDown[i]
    ensures o.timeUp == Elapsed(track, o.classification.segmentUp)
    ensures o.timeDown == Elapsed(track, o.classification.segmentDown)
    ensures o.errors == Errors(o.classification)
    ensures o.table == ResultTable(track, o.timeUp, o.timeDown)
  {
    var c := IdentifyUpAndDownSegments(dist, track, start, turnpoint);
    var timeUp := Elapsed(track, c.segmentUp);
    var timeDown := Elapsed(track, c.segmentDown);
    Outcome(c, Errors(c), timeUp, timeDown, ResultTable(track, timeUp, timeDown))
  }

  /** Each crossing message appears exactly when no point is inside the
      cylinder, and the ordering message never appears. */
  lemma EvaluateErrors(dist: Distance, track: Track, start: Cylinder, turnpoint: Cylinder)
    ensures var o := Evaluate(dist, track, start, turnpoint);
            && (StartNotCrossed in o.errors <==> forall i :: 0 <= i < |track| ==> !IsInside(dist, start, track[i].Position()))
            && (TurnpointNotCrossed in o.errors <==> forall i :: 0 <= i < |track| ==> !IsInside(dist, turnpoint, track[i].Position()))
            && OrderIncorrect !in o.errors
  {
    var c := IdentifyUpAndDownSegments(dist, track, start, turnpoint);
    OrderNeverViolated(c.insideStart, c.insideTp);
  }

  /** The classifier never produces a climb point after a descent point, so
      the ordering check cannot fire. */
  lemma OrderNeverViolated(insideStart: seq<bool>, insideTp: seq<bool>)
    requires |insideStart| == |insideTp|
    ensures !OrderViolated(ClassifyFlags(insideStart, insideTp))
  {
  }

  /** A track that touches neither cylinder gets both crossing messages:
      the checks do not stop at the first failure. */
  lemma BothCrossingMessages(dist: Distance, track: Track, start: Cylinder, turnpoint: Cylinder)
    requires forall i :: 0 <= i < |track| ==> !IsInside(dist, start, track[i].Position())
    requires forall i :: 0 <= i < |track| ==> !IsInside(dist, turnpoint, track[i].Position())
    ensures Evaluate(dist, track, start, turnpoint).errors == [StartNotCrossed, TurnpointNotCrossed]
  {
    var c := IdentifyUpAndDownSegments(dist, track, start, turnpoint);
    OrderNeverViolated(c.insideStart, c.insideTp);
  }

  /** On a whole track: the table is built exactly when there is a second
      point and both segments hold a point. */
  lemma EvaluateTable(dist: Distance, track: Track, start: Cylinder, turnpoint: Cylinder)
    ensures var o := Evaluate(dist, track, start, turnpoint);
            o.table.Success? <==>
              |track| >= 2
              && (exists i :: 0 <= i < |track| && o.classification.segmentUp[i])
              && (exists i :: 0 <= i < |track| && o.classification.segmentDown[i])
  {
  }

  /** Without a turnpoint contact both segments are empty, so the page shows
      its message and then fails on the empty climb. */
  lemma NoTurnpointNoTable(dist: Distance, track: Track, start: Cylinder, turnpoint: Cylinder)
    requires |track| >= 2
    requires forall i :: 0 <= i < |track| ==> !IsInside(dist, turnpoint, track[i].Position())
    ensures var o := Evaluate(dist, track, start, turnpoint);
            TurnpointNotCrossed in o.errors && o.table == Failure(NotATime)
  {
    var c := IdentifyUpAndDownSegments(dist, track, start, turnpoint);
    MissingContactEmptiesSegments(c.insideStart, c.insideTp);
  }
}

=== FILE: segments.dfy ===
/** The segment classifier `identify_up_and_down_segments` (haf_module.py):
    containment flags per point, the four extrema over point indices and the
    climb and descent segments as open index intervals. */
module Segments {
  import opened Wrappers
  import opened Cylinders
  import opened Tracklog

  /** `i` is the smallest index at or after `lo` whose flag is set. */
  ghost predicate IsFirstFrom(b: seq<bool>, lo: nat, i: nat)
  {
    lo <= i < |b| && b[i] && forall j :: lo <= j < i ==> !b[j]
  }

  /** `i` is the largest index below `hi` whose flag is set. */
  ghost predicate IsLastBelow(b: seq<bool>, hi: nat, i: nat)
  {
    i < hi && i < |b| && b[i] && forall j :: i < j < hi && j < |b| ==> !b[j]
  }

  /** `min` of the indices `>= lo` whose flag is set; None (NaN) when the
      filter selects nothing. */
  function FirstFrom(b: seq<bool>, lo: nat): (r: Option<nat>)
    ensures r.None? <==> forall j :: lo <= j < |b| ==> !b[j]
    ensures r.Some? ==> IsFirstFrom(b, lo, r.value)
    decreases |b| - lo
  {
    if lo >= |b| then None
    else if b[lo] then Some(lo)
    else FirstFrom(b, lo + 1)
  }

  /** `max` of the indices `< hi` whose flag is set; None (NaN) when the
      filter selects nothing. */
  function LastBelow(b: seq<bool>, hi: nat): (r: Option<nat>)
    ensures r.None? <==> forall j :: 0 <= j < hi && j < |b| ==> !b[j]
    ensures r.Some? ==> IsLastBelow(b, hi, r.value)
  {
    if hi == 0 then None
    else if hi - 1 < |b| && b[hi - 1] then Some(hi - 1)
    else LastBelow(b, hi - 1)
  }

  /** The comparison `idx < bound` against a possibly-NaN bound, folded into
      the filter: a NaN bound selects nothing. */
  function LastBefore(b: seq<bool>, bound: Option<nat>): Option<nat>
  {
    match bound
    case None => None
    case Some(e) => LastBelow(b, e)
  }

  /** The comparison `idx > bound` against a possibly-NaN bound. */
  function FirstAfter(b: seq<bool>, bound: Option<nat>): Option<nat>
  {
    match bound
    case None => None
    case Some(s) => FirstFrom(b, s + 1)
  }

  /** `(idx > lo) & (idx < hi)`: every comparison with NaN is false. */
  predicate Between(lo: Option<nat>, hi: Option<nat>, i: nat)
  {
    lo.Some? && hi.Some? && lo.value < i < hi.value
  }

  /** The columns `identify_up_and_down_segments` adds to the table. */
  datatype Classification = Classification(
    insideStart: seq<bool>,
    insideTp: seq<bool>,
    upStart: Option<nat>,
    upEnd: Option<nat>,
    downStart: Option<nat>,
    downEnd: Option<nat>,
    segmentUp: seq<bool>,
    segmentDown: seq<bool>)

  /** Both classified columns are as long as the track. */
  ghost predicate WellFormed(c: Classification, n: nat)
  {
    |c.insideStart| == n && |c.insideTp| == n && |c.segmentUp| == n && |c.segmentDown| == n
  }

  /** The part of the classifier that works on the containment columns alone. */
  function ClassifyFlags(insideStart: seq<bool>, insideTp: seq<bool>): (c: Classification)
    requires |insideStart| == |insideTp|
    ensures WellFormed(c, |insideStart|)
    ensures c.insideStart == insideStart && c.insideTp == insideTp
    // the four extrema, each computed on its own filter
    ensures c.upEnd.None? <==> forall j :: 0 <= j < |insideTp| ==> !insideTp[j]
    ensures c.upEnd.Some? ==> IsFirstFrom(insideTp, 0, c.upEnd.value)
    ensures c.upStart.Some? ==> c.upEnd.Some? && IsLastBelow(insideStart, c.upEnd.value, c.upStart.value)
    ensures c.upEnd.Some? && c.upStart.None? ==> forall j :: 0 <= j < c.upEnd.value ==> !insideStart[j]
    ensures c.downStart.None? <==> c.upEnd.None?
    ensures c.downStart.Some? ==> IsLastBelow(insideTp, |insideTp|, c.downStart.value)
    ensures c.downEnd.Some? ==> c.downStart.Some? && IsFirstFrom(insideStart, c.downStart.value + 1, c.downEnd.value)
    ensures c.downStart.Some? && c.downEnd.None? ==>
              forall j :: c.downStart.value < j < |insideStart| ==> !insideStart[j]
    // membership of the segments, both ends excluded
    ensures forall i :: 0 <= i < |c.segmentUp| ==> (c.segmentUp[i] <==> Between(c.upStart, c.upEnd, i))
    ensures forall i :: 0 <= i < |c.segmentDown| ==> (c.segmentDown[i] <==> Between(c.downStart, c.downEnd, i))
  {
    var n := |insideStart|;
    var upEnd := FirstFrom(insideTp, 0);
    var upStart := LastBefore(insideStart, upEnd);
    var downStart := LastBelow(insideTp, n);
    var downEnd := FirstAfter(insideStart, downStart);
    Classification(
      insideStart, insideTp, upStart, upEnd, downStart, downEnd,
      seq(n, (i: nat) => Between(upStart, upEnd, i)),
      seq(n, (i: nat) => Between(downStart, downEnd, i)))
  }

  /** The containment column of one cylinder, one flag per row. */
  function InsideFlags(dist: Distance, c: Cylinder, track: Track): (r: seq<bool>)
    ensures |r| == |track|
    ensures forall i :: 0 <= i < |track| ==> (r[i] <==> IsInside(dist, c, track[i].Position()))
  {
    seq(|track|, i requires 0 <= i < |track| => IsInside(dist, c, track[i].Position()))
  }

  /** `identify_up_and_down_segments`. */
  function IdentifyUpAndDownSegments(dist: Distance, track: Track, start: Cylinder, turnpoint: Cylinder): (c: Classification)
    ensures WellFormed(c, |track|)
    ensures forall i :: 0 <= i < |track| ==>
              (c.insideStart[i] <==> IsInside(dist, start, track[i].Position()))
              && (c.insideTp[i] <==> IsInside(dist, turnpoint, track[i].Position()))
    ensures c == ClassifyFlags(c.insideStart, c.insideTp)
  {
    ClassifyFlags(InsideFlags(dist, start, track), InsideFlags(dist, turnpoint, track))
  }

  /** The climb lies strictly below the descent:
      climb < up_end <= down_start < descent. */
  lemma ClimbPrecedesDescent(insideStart: seq<bool>, insideTp: seq<bool>, i: nat, j: nat)
    requires |insideStart| == |insideTp|
    requires i < |insideStart| && j < |insideStart|
    requires ClassifyFlags(insideStart, insideTp).segmentUp[i]
    requires ClassifyFlags(insideStart, insideTp).segmentDown[j]
    ensures i < j
  {
    var c := ClassifyFlags(insideStart, insideTp);
    assert IsFirstFrom(insideTp, 0, c.upEnd.value);
    assert IsLastBelow(insideTp, |insideTp|, c.downStart.value);
  }

  /** Every climb point and every descent point is outside both cylinders. */
  lemma SegmentsAvoidCylinders(insideStart: seq<bool>, insideTp: seq<bool>, i: nat)
    requires |insideStart| == |insideTp| && i < |insideStart|
    ensures ClassifyFlags(insideStart, insideTp).segmentUp[i] ==> !insideStart[i] && !insideTp[i]
    ensures ClassifyFlags(insideStart, insideTp).segmentDown[i] ==> !insideStart[i] && !insideTp[i]
  {
  }

  /** Without a turnpoint contact both segments are empty; without a start
      contact after the last turnpoint contact the descent is empty. */
  lemma MissingContactEmptiesSegments(insideStart: seq<bool>, insideTp: seq<bool>)
    requires |insideStart| == |insideTp|
    ensures (forall j :: 0 <= j < |insideTp| ==> !insideTp[j]) ==>
              forall i :: 0 <= i < |insideStart| ==>
                !ClassifyFlags(insideStart, insideTp).segmentUp[i] && !ClassifyFlags(insideStart, insideTp).segmentDown[i]
    ensures ClassifyFlags(insideStart, insideTp).downEnd.None? ==>
              forall i :: 0 <= i < |insideStart| ==> !ClassifyFlags(insideStart, insideTp).segmentDown[i]
  {
  }

  /** A track that touches the turnpoint, comes back to the start, goes out
      to the turnpoint again and finally lands: the climb starts at the last
      start contact before the first turnpoint contact and the descent at
      the last turnpoint contact. */
  lemma RevisitedTurnpointExample()
    ensures var c := ClassifyFlags(
              [true, true, false, false, false, true, false, false, false, true],
              [false, false, false, true, false, false, false, true, false, false]);
            && c.upStart == Some(1) && c.upEnd == Some(3)
            && c.downStart == Some(7) && c.downEnd == Some(9)
            && c.segmentUp == [false, false, true, false, false, false, false, false, false, false]
            && c.segmentDown == [false, false, false, false, false, false, false, false, true, false]
  {
    var start := [true, true, false, false, false, true, false, false, false, true];
    var tp := [false, false, false, true, false, false, false, true, false, false];
    var c := ClassifyFlags(start, tp);
    assert c.upEnd == Some(3);
    assert c.upStart == Some(1);
    assert c.downStart == Some(7) by {
      assert IsLastBelow(tp, |tp|, c.downStart.value);
      assert tp[7];
    }
    assert c.downEnd == Some(9);
  }
}

=== FILE: tracklog.dfy ===
/** The parsed GPX document and its flattening into the ordered list of
    track points the evaluator works on (`gpx_to_df`, haf_module.py). */
module Tracklog {
  import opened Wrappers
  import opened Cylinders

  /** A GPX track point as the parser yields it. Times are microseconds on a
      common clock; the elevation may be absent from the file. */
  datatype GpxPoint = GpxPoint(time: int, latitude: real, longitude: real, elevation: Option<real>)
  datatype GpxSegment = GpxSegment(points: seq<GpxPoint>)
  datatype GpxTrack = GpxTrack(segments: seq<GpxSegment>)
  datatype Gpx = Gpx(tracks: seq<GpxTrack>)

  /** One row of the evaluator's table. Its index is its position in the
      track, as the RangeIndex of `DataFrame.from_records` makes it. */
  datatype TrackPoint = TrackPoint(time: int, latitude: real, longitude: real, elevation: Option<real>)
  {
    function Position(): LatLon { LatLon(latitude, longitude) }
  }

  type Track = seq<TrackPoint>

  function ToRecord(p: GpxPoint): TrackPoint
  {
    TrackPoint(p.time, p.latitude, p.longitude, p.elevation)
  }

  /** Number of points held by a list of segments. */
  function PointCount(segments: seq<GpxSegment>): nat
  {
    if |segments| == 0 then 0 else PointCount(segments[..|segments| - 1]) + |segments[|segments| - 1].points|
  }

  /** The records of one segment, in file order. */
  function SegmentRecords(s: GpxSegment): (r: Track)
    ensures |r| == |s.points|
    ensures forall k :: 0 <= k < |r| ==> r[k] == ToRecord(s.points[k])
  {
    seq(|s.points|, k requires 0 <= k < |s.points| => ToRecord(s.points[k]))
  }

  /** The nested loops of `gpx_to_df`: every point of every segment, appended
      in order. */
  function Flatten(segments: seq<GpxSegment>): (r: Track)
    ensures |r| == PointCount(segments)
  {
    if |segments| == 0 then []
    else Flatten(segments[..|segments| - 1]) + SegmentRecords(segments[|segments| - 1])
  }

  /** Point `k` of segment `s` lands at row `PointCount(segments[..s]) + k`:
      the list is the in-order concatenation of the segments. */
  lemma {:induction false} FlattenPlacesPoint(segments: seq<GpxSegment>, s: nat, k: nat)
    requires s < |segments| && k < |segments[s].points|
    ensures PointCount(segments[..s]) + k < |Flatten(segments)|
    ensures Flatten(segments)[PointCount(segments[..s]) + k] == ToRecord(segments[s].points[k])
  {
    var n := |segments|;
    var init := segments[..n - 1];
    if s == n - 1 {
      assert segments[..s] == init;
    } else {
      assert init[..s] == segments[..s];
      FlattenPlacesPoint(init, s, k);
    }
  }

  /** Flattening distributes over concatenation of segment lists. */
  lemma {:induction false} FlattenAppend(a: seq<GpxSegment>, b: seq<GpxSegment>)
    ensures Flatten(a + b) == Flatten(a) + Flatten(b)
    decreases |b|
  {
    if |b| == 0 {
      assert a + b == a;
    } else {
      var b' := b[..|b| - 1];
      var last := SegmentRecords(b[|b| - 1]);
      assert (a + b)[..|a + b| - 1] == a + b';
      assert Flatten(a + b) == Flatten(a + b') + last;
      FlattenAppend(a, b');
      assert Flatten(a + b') + last == Flatten(a) + (Flatten(b') + last);
    }
  }

  /** Why `gpx_to_df` may fail: a document without tracks has no
      `tracks[0]`, and a table built from no records has no `time` column. */
  datatype GpxError = NoTrack | NoPoints

  /** `gpx_to_df`: the points of the first track only, flattened. */
  function GpxToTrack(gpx: Gpx): (r: Result<Track, GpxError>)
    ensures |gpx.tracks| == 0 <==> r == Failure(NoTrack)
    ensures |gpx.tracks| > 0 && PointCount(gpx.tracks[0].segments) == 0 <==> r == Failure(NoPoints)
    ensures r.Success? ==> |gpx.tracks| > 0
                           && |r.value| == PointCount(gpx.tracks[0].segments) > 0
                           && r.value == Flatten(gpx.tracks[0].segments)
  {
    if |gpx.tracks| == 0 then Failure(NoTrack)
    else
      var segments := gpx.tracks[0].segments;
      if PointCount(segments) == 0 then Failure(NoPoints) else Success(Flatten(segments))
  }

  /** Tracks after the first never reach the table. */
  lemma OnlyFirstTrackCounts(gpx: Gpx, extra: seq<GpxTrack>)
    requires |gpx.tracks| > 0
    ensures GpxToTrack(Gpx(gpx.tracks + extra)) == GpxToTrack(gpx)
  {
    assert (gpx.tracks + extra)[0] == gpx.tracks[0];
  }
}

=== FILE: wrappers.dfy ===
/** Failure-compatible datatypes shared by the model: `Option` stands for a
    pandas value that may be missing (NaN, NaT), `Result` for a computation
    that may raise. */
module Wrappers {

  datatype Option<+T> = None | Some(value: T)

  datatype Result<+R, +E> = Success(value: R) | Failure(error: E) {

    predicate IsFailure() {
      Failure?
    }

    function PropagateFailure<U>(): Result<U, E>
      requires Failure?
    {
      Failure(error)
    }

    function Extract(): R
      requires Success?
    {
      value
    }
  }
}
